=== FILE: README.md ===
# Memory pool and round-robin dispatch of linux-c-template, in Dafny

This project models two sequential pieces of the thread work-queue library in
`template-v1/src`:

- **the slab-style memory pool** (`mempool/mempool.c`): the slice-size
  arithmetic, and the pool state machine. The state is the slice size `sz`,
  the cap `max` (0 means unlimited), the counters `ref` and `fail`, the LIFO
  free list and the slices handed out. The operations are `mempool_init`,
  `alloc_slice`/`mempool_alloc`, `mempool_free`, `free_slice`,
  `__mempool_recycle`/`mempool_recycle` and the leak check of `mempool_exit`;
- **the round-robin dispatch policy** (`threadwq/threadwq_man_rr.c`): the
  counter `twq_idx` over `N = twq_pool_nr` queues, with `rr_init`, `rr_add_job`
  and `rr_exit`.

Files:

- `c_width.dfy`: module `CWidth`, the moduli of `unsigned int` and `unsigned long`.
- `slice_size.dfy`: module `SliceSize`, i.e. `mempool_calc_slice_size` in
  32-bit `unsigned int` arithmetic.
- `mempool.dfy`: module `MemPool`, the pool record, its invariant `Valid`, and
  one pure function per C function.
- `pool_trace.dfy`: module `PoolTrace`, which runs arbitrary sequences of
  alloc/free/recycle calls and proves the invariant across them.
- `roundrobin.dfy`: module `RoundRobin`, the dispatch step, visiting orders
  over many submissions and the share each queue receives.

Modelling choices:

- The target is LP64 Linux. `sizeof(struct mempool_slice)` is 24: a 4-byte
  magic, 4 bytes of padding and a two-pointer list node. `sizeof(unsigned long)`
  is 8, and `unsigned int` is 32 bits.
- A slice is named by its address. A free slice is a pair of its address and
  its magic word. `mempool_alloc` returns the slice itself, header included,
  so the caller may overwrite the magic. That is why `mempool_free` stamps the
  magic again and why the pool checks it when it reuses a slice.
- The pool record also keeps the set `out` of slices currently handed out. The
  C code keeps no such set, but this set is what `ref` counts together with the
  free list. `ref` counts every slice obtained from `malloc` and not yet
  returned to it, free or not. So the cap bounds all slices, not only the
  outstanding ones.
- Foreign calls become inputs. `Alloc` takes the outcome of `malloc` (`Malloc`)
  and the constructor's verdict (`veto`, which counts only when a constructor
  is configured). The destructor has no effect the pool can see.
- A `BUG_ON` that fires (`lgu/bug/bug.h:10`) gives the outcome `Fatal`, as does
  the NULL dereference described below. Misuse the C code does not detect is a
  precondition. Freeing a slice the caller does not own, including a double
  free, is such misuse. The invariant lemmas also assume that `malloc` returns
  memory the pool does not already hold (`Fresh`).
- The spinlocks are left out. Each operation is one sequential step.
- `fail` wraps modulo 2^64. `CalcSliceSize` wraps modulo 2^32.
- The constructor also runs when `alloc_slice` returned NULL. If it accepts,
  `mempool_alloc` returns NULL. If it rejects, `mempool_free(mp, NULL)` writes
  through a NULL pointer. The model gives `Fatal(NullSlice)`.
- `mempool_calc_slice_size` wraps for requests above 4294967288 bytes.
  `CalcSliceSizeWraps` shows such requests give a size of 0. A pool set up
  with one aborts at the size check in `alloc_slice` on its first growth. The
  model keeps this behaviour.
- In places the code and its own comments and names disagree. The model
  follows the code:
  - `mempool_free` never checks for a double free.
  - `mempool_recycle` has a `reserve` parameter (`mempool/mempool.c:123`) but
    ignores it and always recycles down to 0.
  - `fail` counts only cap refusals, not `malloc` failures, although its field
    comment (`mempool/mempool.h:23`) says it counts `malloc` failures.
  - `rr_add_job` does not add jobs "one by one" as its comment
    (`threadwq/threadwq_man_rr.c:17`) says (see Findings).
- The queue count is taken to be an `unsigned int`, like `worker_nr` in
  `threadwq/threadwq.h`; `threadwq_man.h` is not part of this model. With no
  queues at all `rr_add_job` would index an empty array, so `N > 0` is a
  precondition. Forwarding a job appends it to the chosen queue's sequence.

## Model

| member | source | states |
|---|---|---|
| SliceSize.CalcSliceSize | template-v1/src/mempool/mempool.c:133-160 | for requests up to 2^32-8 the size is at least the request and the 24-byte header, a multiple of 8, and less than the larger of the two plus 8; larger requests wrap to 0 |
| SliceSize.CalcSliceSizeIsLeast | template-v1/src/mempool/mempool.c:138-156 | the computed size is the smallest multiple of 8 that holds both the request and the header |
| SliceSize.CalcSliceSizeIdempotent | template-v1/src/mempool/mempool.c:138-156 | rounding an already rounded size returns it unchanged |
| SliceSize.CalcSliceSizeWraps | template-v1/src/mempool/mempool.c:156 | the 32-bit addition overflows to 0 for every `unsigned int` request above 2^32-8, while 2^32-8 is kept as is |
| MemPool.Init | template-v1/src/mempool/mempool.c:162-186 | an empty name aborts; otherwise the pool is valid and empty: `ref` 0, `fail` 0, no free or outstanding slices, the rounded size, the given cap, and the name kept whole up to 15 characters and otherwise cut to exactly its first 15 |
| MemPool.AllocSlice | template-v1/src/mempool/mempool.c:18-54 | a non-empty free list yields its head (the most recently freed slice) exactly when it carries the magic, without consulting the cap and without moving `ref`; a cap refusal happens exactly when the list is empty and `ref` has reached a non-zero `max`, and then only `fail` moves; refusals never touch `ref`; a `malloc` failure changes nothing; growth takes the `malloc`ed slice and raises `ref` by one; with an empty list the size check aborts exactly when the cap allows growth and the size is below the header |
| MemPool.Alloc | template-v1/src/mempool/mempool.c:64-87 | without a rejecting constructor the result is exactly `alloc_slice`'s (the free-list head, or the `malloc`ed slice with `ref` one higher); a rejected slice is pushed back, stamped, at the head of the free list with every other field of the pool kept, and the caller gets NULL; a cap refusal changes only `fail`; a `malloc` failure leaves the pool unchanged; the NULL-dereference abort happens exactly when a constructor rejects a NULL slice |
| MemPool.AllocSliceKeepsValid | template-v1/src/mempool/mempool.c:22-51 | from a valid pool `alloc_slice` never trips the magic check, keeps the pool valid and grants only a slice no caller holds |
| MemPool.AllocKeepsValid | template-v1/src/mempool/mempool.c:64-87 | whatever the constructor decides, `mempool_alloc` keeps a valid pool valid, and it can abort only on the size check or a vetoed NULL slice |
| MemPool.Free | template-v1/src/mempool/mempool.c:89-103 | the slice, stamped with the magic, becomes the head of the free list and stops being outstanding; nothing else changes (counters, cap, size, hooks, name and pool magic); validity is kept |
| MemPool.FreeThenAlloc | template-v1/src/mempool/mempool.c:47-101 | freeing a slice and allocating again returns that same slice and restores the pool exactly (LIFO reuse) |
| MemPool.VetoOnReuseRestores | template-v1/src/mempool/mempool.c:74-82 | a constructor veto on a reused slice returns NULL and leaves the pool exactly as before |
| MemPool.VetoOnGrowthKeepsSlice | template-v1/src/mempool/mempool.c:74-82 | a constructor veto on a freshly grown slice returns NULL, keeps `ref` one higher and puts the slice on the free list |
| MemPool.ExhaustedIff | template-v1/src/mempool/mempool.c:22-31 | with a cap, growth is refused as exhausted exactly when the free list is empty and callers hold `max` slices |
| MemPool.FreeSlice | template-v1/src/mempool/mempool.c:56-62 | releasing one slice succeeds exactly when it carries the magic, and then lowers `ref` by one |
| MemPool.RecycleDown | template-v1/src/mempool/mempool.c:105-121 | with every free slice tagged, exactly min(free-list length, `ref` − `reserve`) slices leave the head of the list and `ref` drops by that many; nothing else changes |
| MemPool.Recycle | template-v1/src/mempool/mempool.c:123-128 | whatever `reserve` is, a valid pool loses its whole free list and `ref` becomes the number of outstanding slices |
| MemPool.Exit | template-v1/src/mempool/mempool.c:188-204 | on a valid pool the leak report is printed exactly when some slice is still outstanding |
| PoolTrace.StepKeepsValid | template-v1/src/mempool/mempool.c:64-128 | one permitted alloc, free or recycle keeps the pool valid; an abort is a vetoed NULL slice or a too-small size |
| PoolTrace.RunKeepsValid | template-v1/src/mempool/mempool.c:18-128 | along any run of permitted calls `ref` equals free plus outstanding slices, the cap holds, every free slice carries the magic, and no magic check fires |
| PoolTrace.RunPreservesConfig | template-v1/src/mempool/mempool.c:173-177 | size, cap and constructor set by `mempool_init` never change afterwards |
| PoolTrace.InitThenRun | template-v1/src/mempool/mempool.c:162-186 | from `mempool_init` with a representable size, every run keeps `ref` = free + outstanding and, when there is a cap, `ref` <= `max`; it can abort only when a constructor rejects a NULL slice |
| PoolTrace.ScenarioCapacityTwo | template-v1/src/mempool/mempool.c:22-51 | capacity 2: two allocations succeed, the third is refused as exhausted, and after one free the retry gets that freed slice |
| RoundRobin.RrInit | template-v1/src/threadwq/threadwq_man_rr.c:41-46 | the stored index fits an `unsigned int`, and for any number of queues the first submission goes to queue 0 and leaves the index at 1 |
| RoundRobin.Pick | template-v1/src/threadwq/threadwq_man_rr.c:20-29 | the chosen queue is below N and the stored index at most N; an index below N is used and incremented, an index at or above N sends the job to queue 0 and stores 0 |
| RoundRobin.AddJob | template-v1/src/threadwq/threadwq_man_rr.c:12-39 | a NULL job aborts; otherwise exactly one queue gains exactly the job at its end, all other queues are unchanged, and the return code is 0 |
| RoundRobin.ClimbToEnd | template-v1/src/threadwq/threadwq_man_rr.c:27-30 | from an index i <= N the next N−i submissions visit i, …, N−1 in order and leave the index at N |
| RoundRobin.FirstRound | template-v1/src/threadwq/threadwq_man_rr.c:20-46 | from `rr_init`, N+1 submissions visit 0, 1, …, N−1, 0 and bring the index back to 0 |
| RoundRobin.SkewedShare | template-v1/src/threadwq/threadwq_man_rr.c:20-34 | K(N+1) submissions from `rr_init` give queue 0 exactly 2K jobs and every other queue exactly K |
| RoundRobin.SubmitAllFollowsVisits | template-v1/src/threadwq/threadwq_man_rr.c:32-35 | submitting a run of jobs grows each queue by the number of times the visiting order names it |
| RoundRobin.NineJobsOverThreeQueues | template-v1/src/threadwq/threadwq_man_rr.c:22-26 | nine jobs over three queues from `rr_init` leave 5, 2 and 2 jobs in the queues |
| RoundRobin.PickRotating | template-v1/src/threadwq/threadwq_man_rr.c:22-29 | corrected update: an index at or above N uses queue 0 and stores 1 |
| RoundRobin.FairShare | template-v1/src/threadwq/threadwq_man_rr.c:17-29 | with the corrected update, KN submissions from `rr_init` give every queue exactly K jobs |

## Left out

- The spinlocks of the pool and the separate atomic read, test and update in
  `rr_add_job` are left out. Both are modelled as one sequential step, so the
  race between concurrent submitters is not represented.
- `malloc`, `free` and the constructor/destructor hooks are foreign code. They
  appear only as inputs: a `malloc` outcome and a veto flag. The destructor
  has no modelled effect.
- The `fprintf` leak diagnostic becomes the boolean result of `MemPool.Exit`.
  Its `pthread_spin_destroy` is left out.
- `BUG_ON(mp == NULL)`, the `name == NULL` half of `BUG_ON` at
  `mempool/mempool.c:168` and `man == NULL` are left out: a pool, a name
  string and a manager value always exist in the model.
- MemPool.AllocSlice: `ref` is an unbounded natural. Its 64-bit wrap is not
  modelled, because 2^64 slices of at least 24 bytes cannot exist in a 64-bit
  address space.
- RoundRobin.RrExit carries no contract. `rr_exit` has an empty body, so the
  model is the identity on the policy state and there is nothing further to
  state about it.
- The worker threads, lock-free queues, deferred reclamation and start/stop
  handshake of `threadwq/threadwq.c` are left out. They are concurrency and a
  foreign library, not sequential logic. `threadwq_add_job` is represented
  only by appending to a sequence.
- The dispatch policy modelled is the round-robin one of
  `threadwq/threadwq_man_rr.c:12-53`; the manager that calls it is not part
  of this model.

## Findings

| source | as written | input that shows it | evidently intended | confidence | as-written member | corrected member |
|---|---|---|---|---|---|---|
| template-v1/src/threadwq/threadwq_man_rr.c:22-26 | when the index reaches N, the job goes to queue 0 but the stored index becomes 0, so the next job goes to queue 0 as well | N = 3 queues, 9 jobs from `rr_init`: the queues receive 5, 2 and 2 jobs | round-robin "one by one": store 1 after using queue 0, so that K·N jobs give every queue K | medium, not executed | RoundRobin.NineJobsOverThreeQueues | RoundRobin.FairShare |

=== FILE: c_width.dfy ===
/**
 The C integer widths of the LP64 Linux target, shared by the memory pool and
 the work-queue dispatch: values of an unsigned C type are the naturals below
 its modulus, and unsigned arithmetic wraps modulo it.
 */
module CWidth {

  /** 2^32: `unsigned int`. */
  const UINT_MOD: nat := 0x1_0000_0000

  /** 2^64: `unsigned long`. */
  const ULONG_MOD: nat := 0x1_0000_0000_0000_0000
}

=== FILE: mempool.dfy ===
/**
 The slab-style memory pool (mempool.c) as a functional state machine.

 A slice is named by its address; the bytes of a slice that matter to the pool
 are its magic word, so a slice on the free list is a (address, magic) pair.
 The pool also records the set of addresses currently handed out to callers:
 the C code keeps no such set, but it is what the counter `ref` is about.

 Foreign behaviour becomes input: the outcome of the backing `malloc` and the
 verdict of the constructor hook are parameters of `Alloc`. The destructor hook
 has no effect the pool can observe. A `BUG_ON` that fires is the `Fatal`
 outcome; a misuse the C code does not detect (a double free, freeing a
 foreign pointer) is a precondition.
 */
module MemPool {
  import opened CWidth
  import opened SliceSize

  /** The pool's own debug tag, written by mempool_init. */
  const POOL_MAGIC: nat := 0x54085408

  /** MEMPOOL_SLICE_MAGIC, stamped on every slice given back to the pool. */
  const SLICE_MAGIC: nat := 54085408

  /** Characters of the pool name kept by mempool_init (MEMPOOL_NAME_MAX less the terminator). */
  const NAME_KEPT: nat := 15

  datatype Slice = Slice(addr: nat, magic: nat)

  /** struct mempool. `free` is the free list, head first: the head is the
      most recently freed slice. `out` holds the slices owned by callers. */
  datatype Pool = Pool(
    magic: nat,
    name: string,
    sz: nat,
    ref: nat,
    max: nat,
    fail: nat,
    hasCtor: bool,
    hasDtor: bool,
    free: seq<Slice>,
    out: set<nat>)

  /** The `BUG_ON` checks, plus the NULL dereference of a vetoed failed allocation. */
  datatype Bug = EmptyName | SliceTooSmall | BadSliceMagic | NullSlice

  datatype Outcome<T> = Ok(value: T) | Fatal(bug: Bug)

  /** Why an allocation returned NULL. */
  datatype Refusal = Exhausted | MallocFailed | CtorRejected

  datatype Reply = Granted(pool: Pool, addr: nat) | Refused(pool: Pool, why: Refusal)

  /** What the backing allocator returned. */
  datatype Malloc = MallocNull | MallocOk(addr: nat)

  predicate AllTagged(free: seq<Slice>) {
    forall i :: 0 <= i < |free| ==> free[i].magic == SLICE_MAGIC
  }

  predicate OnFreeList(free: seq<Slice>, a: nat) {
    exists i :: 0 <= i < |free| && free[i].addr == a
  }

  predicate DistinctAddrs(free: seq<Slice>) {
    forall i, j :: 0 <= i < j < |free| ==> free[i].addr != free[j].addr
  }

  /** The pool invariant: `ref` counts every slice obtained from malloc and not
      yet returned to it, the cap bounds that count, every free slice carries
      the magic, and no slice is both free and handed out. */
  predicate Valid(p: Pool) {
    && p.ref == |p.free| + |p.out|
    && (p.max > 0 ==> p.ref <= p.max)
    && AllTagged(p.free)
    && DistinctAddrs(p.free)
    && (forall i :: 0 <= i < |p.free| ==> p.free[i].addr !in p.out)
    && p.fail < ULONG_MOD
  }

  /** A successful malloc hands out memory the pool does not already hold. */
  predicate Fresh(p: Pool, m: Malloc) {
    m.MallocOk? ==> m.addr !in p.out && !OnFreeList(p.free, m.addr)
  }

  /** True when the constructor hook exists and rejects the slice. */
  predicate Vetoed(p: Pool, veto: bool) {
    p.hasCtor && veto
  }

  /** The leading characters of `name` that fit in `n` places: snprintf's cut. */
  function Prefix(name: string, n: nat): (r: string)
    ensures |r| <= n && r <= name
    ensures |name| <= n ==> r == name
    ensures |name| > n ==> |r| == n
  {
    if |name| <= n then name else name[..n]
  }

  /** mempool_init. `name` stands for the characters before the C string's
      terminator; `size` is an `unsigned int`, `max` an `unsigned long`. */
  function Init(name: string, size: nat, max: nat, hasCtor: bool, hasDtor: bool): (r: Outcome<Pool>)
    requires size < UINT_MOD && max < ULONG_MOD
    ensures r.Fatal? <==> |name| == 0
    ensures r.Fatal? ==> r.bug == EmptyName
    ensures r.Ok? ==> Valid(r.value)
    ensures r.Ok? ==> r.value.ref == 0 && r.value.fail == 0 && r.value.free == [] && r.value.out == {}
    ensures r.Ok? ==> r.value.sz == CalcSliceSize(size) && r.value.max == max
    ensures r.Ok? ==> r.value.hasCtor == hasCtor && r.value.hasDtor == hasDtor
    ensures r.Ok? ==> |r.value.name| <= NAME_KEPT && r.value.name <= name
    ensures r.Ok? ==> |r.value.name| == if |name| <= NAME_KEPT then |name| else NAME_KEPT
    ensures r.Ok? && size <= MAX_ROUNDABLE ==> r.value.sz >= HEADER_SIZE && r.value.sz >= size
  {
    if |name| == 0 then Fatal(EmptyName)
    else Ok(Pool(POOL_MAGIC, Prefix(name, NAME_KEPT), CalcSliceSize(size), 0, max, 0, hasCtor, hasDtor, [], {}))
  }

  /** alloc_slice: take the head of the free list, or grow the pool under the cap. */
  function AllocSlice(p: Pool, m: Malloc): (r: Outcome<Reply>)
    // Reuse: a tagged head is always handed out, whatever the cap says; it is
    // the most recently freed slice, and `ref` does not move.
    ensures |p.free| > 0 ==> (r.Ok? <==> p.free[0].magic == SLICE_MAGIC)
    ensures |p.free| > 0 && r.Ok? ==>
      r.value == Granted(p.(free := p.free[1..], out := p.out + {p.free[0].addr}), p.free[0].addr)
    ensures |p.free| > 0 && r.Fatal? ==> r.bug == BadSliceMagic
    // Refusals happen only with an empty free list and never move `ref` or `out`.
    ensures r.Ok? && r.value.Refused? ==> p.free == [] && r.value.why != CtorRejected
    ensures r.Ok? && r.value.Refused? && r.value.why == Exhausted <==>
      p.free == [] && p.max != 0 && p.ref >= p.max
    ensures r.Ok? && r.value.Refused? && r.value.why == Exhausted ==>
      r.value.pool == p.(fail := (p.fail + 1) % ULONG_MOD)
    ensures r.Ok? && r.value.Refused? && r.value.why == MallocFailed ==> r.value.pool == p && m.MallocNull?
    // Growth: the slice comes from malloc, is counted in `ref`, and goes to the caller.
    ensures r.Ok? && r.value.Granted? && p.free == [] ==>
      m == MallocOk(r.value.addr) && r.value.pool == p.(ref := p.ref + 1, out := p.out + {m.addr})
    ensures p.free == [] && r.Fatal? <==>
      p.free == [] && !(p.max != 0 && p.ref >= p.max) && p.sz < HEADER_SIZE
    ensures p.free == [] && r.Fatal? ==> r.bug == SliceTooSmall
  {
    if |p.free| == 0 then
      if p.max != 0 && p.ref >= p.max then
        Ok(Refused(p.(fail := (p.fail + 1) % ULONG_MOD), Exhausted))
      else if p.sz < HEADER_SIZE then
        Fatal(SliceTooSmall)
      else match m
        case MallocNull => Ok(Refused(p, MallocFailed))
        case MallocOk(a) => Ok(Granted(p.(ref := p.ref + 1, out := p.out + {a}), a))
    else
      var head := p.free[0];
      if head.magic != SLICE_MAGIC then Fatal(BadSliceMagic)
      else Ok(Granted(p.(free := p.free[1..], out := p.out + {head.addr}), head.addr))
  }

  /** mempool_free. The C code never checks for a double free, so the slice
      must be one the caller owns. */
  function Free(p: Pool, a: nat): (r: Pool)
    requires a in p.out
    ensures r.free == [Slice(a, SLICE_MAGIC)] + p.free
    ensures r.out == p.out - {a}
    ensures r.ref == p.ref && r.fail == p.fail && r.max == p.max && r.sz == p.sz
    // Nothing but the free list and the slices held changes: not the counters,
    // the cap, the size, the hooks, the name or the pool's magic.
    ensures r.(free := p.free, out := p.out) == p
    ensures Valid(p) ==> Valid(r)
  {
    p.(free := [Slice(a, SLICE_MAGIC)] + p.free, out := p.out - {a})
  }

  /** mempool_alloc: alloc_slice, then the constructor hook. The hook also runs
      on a NULL slice; if it rejects that, mempool_free dereferences NULL. */
  function Alloc(p: Pool, m: Malloc, veto: bool): (r: Outcome<Reply>)
    ensures r.Fatal? && r.bug == NullSlice ==> Vetoed(p, veto)
    ensures r.Ok? && r.value.Granted? ==> !Vetoed(p, veto) && r.value.addr in r.value.pool.out
    ensures r.Ok? && r.value.Refused? && r.value.why == Exhausted ==>
      r.value.pool == p.(fail := (p.fail + 1) % ULONG_MOD)
    ensures r.Ok? && r.value.Refused? && r.value.why == MallocFailed ==> r.value.pool == p
    // Without a rejecting constructor the caller gets exactly what alloc_slice
    // gives: the free-list head, or the malloc'ed slice with `ref` one higher.
    ensures !Vetoed(p, veto) || AllocSlice(p, m).Fatal? ==> r == AllocSlice(p, m)
    // A rejected slice goes back to the head of the free list, stamped, and the
    // caller gets NULL; a rejected NULL slice is the NULL dereference.
    ensures Vetoed(p, veto) && AllocSlice(p, m).Ok? && AllocSlice(p, m).value.Granted? ==>
      var g := AllocSlice(p, m).value;
      && r.Ok? && r.value.Refused? && r.value.why == CtorRejected
      && r.value.pool.free == [Slice(g.addr, SLICE_MAGIC)] + g.pool.free
      && r.value.pool.out == g.pool.out - {g.addr}
      && r.value.pool.(free := g.pool.free, out := g.pool.out) == g.pool
    ensures Vetoed(p, veto) && AllocSlice(p, m).Ok? && AllocSlice(p, m).value.Refused? ==>
      r == Fatal(NullSlice)
  {
    match AllocSlice(p, m)
    case Fatal(b) => Fatal(b)
    case Ok(Granted(q, a)) =>
      if Vetoed(p, veto) then Ok(Refused(Free(q, a), CtorRejected)) else Ok(Granted(q, a))
    case Ok(Refused(q, why)) =>
      if Vetoed(p, veto) then Fatal(NullSlice) else Ok(Refused(q, why))
  }

  /** alloc_slice keeps the invariant, and what it grants was not outstanding. */
  lemma AllocSliceKeepsValid(p: Pool, m: Malloc)
    requires Valid(p) && Fresh(p, m)
    ensures AllocSlice(p, m) != Fatal(BadSliceMagic)
    ensures AllocSlice(p, m).Ok? ==> Valid(AllocSlice(p, m).value.pool)
    ensures AllocSlice(p, m).Ok? && AllocSlice(p, m).value.Granted? ==>
      AllocSlice(p, m).value.addr !in p.out
  {
  }

  /** mempool_alloc keeps the invariant, whatever the hook decides; from a valid
      pool only the slice-size check or a vetoed NULL slice can abort it. */
  lemma AllocKeepsValid(p: Pool, m: Malloc, veto: bool)
    requires Valid(p) && Fresh(p, m)
    ensures Alloc(p, m, veto).Fatal? ==> Alloc(p, m, veto).bug in {SliceTooSmall, NullSlice}
    ensures Alloc(p, m, veto).Ok? ==> Valid(Alloc(p, m, veto).value.pool)
    ensures Alloc(p, m, veto).Ok? && Alloc(p, m, veto).value.Granted? ==> Alloc(p, m, veto).value.addr !in p.out
  {
    AllocSliceKeepsValid(p, m);
  }

  /** LIFO reuse: freeing a slice and allocating again hands back that very
      slice and restores the pool exactly; malloc is not consulted. */
  lemma FreeThenAlloc(p: Pool, a: nat, m: Malloc, veto: bool)
    requires a in p.out && !Vetoed(p, veto)
    ensures Alloc(Free(p, a), m, veto) == Ok(Granted(p, a))
  {
    var q := Free(p, a);
    assert q.free[1..] == p.free;
    assert (p.out - {a}) + {a} == p.out;
  }

  /** A constructor veto on a reused slice puts it back at the head of the
      free list: the pool is exactly as before and the caller gets NULL. */
  lemma VetoOnReuseRestores(p: Pool, m: Malloc)
    requires Valid(p) && |p.free| > 0 && p.hasCtor
    ensures Alloc(p, m, true) == Ok(Refused(p, CtorRejected))
  {
    var head := p.free[0];
    assert head.addr !in p.out;
    assert (p.out + {head.addr}) - {head.addr} == p.out;
    assert [Slice(head.addr, SLICE_MAGIC)] + p.free[1..] == p.free;
  }

  /** A constructor veto on a freshly grown slice keeps it: `ref` grows by one
      and the new slice becomes the whole free list. */
  lemma VetoOnGrowthKeepsSlice(p: Pool, a: nat)
    requires Valid(p) && p.free == [] && a !in p.out && p.hasCtor
    requires !(p.max != 0 && p.ref >= p.max) && p.sz >= HEADER_SIZE
    ensures Alloc(p, MallocOk(a), true) ==
      Ok(Refused(p.(ref := p.ref + 1, free := [Slice(a, SLICE_MAGIC)]), CtorRejected))
  {
    var q := p.(ref := p.ref + 1, out := p.out + {a});
    assert AllocSlice(p, MallocOk(a)) == Ok(Granted(q, a));
    assert (p.out + {a}) - {a} == p.out;
    assert Free(q, a) == p.(ref := p.ref + 1, free := [Slice(a, SLICE_MAGIC)]);
  }

  /** With a cap, growth is refused exactly when the free list is empty and
      every slice the cap allows is in callers' hands. */
  lemma ExhaustedIff(p: Pool, m: Malloc)
    requires Valid(p) && p.max > 0
    ensures AllocSlice(p, m).Ok? && AllocSlice(p, m).value.Refused? && AllocSlice(p, m).value.why == Exhausted
      <==> p.free == [] && |p.out| == p.max
  {
  }

  /** free_slice: give one slice back to malloc. */
  function FreeSlice(p: Pool, s: Slice): (r: Outcome<Pool>)
    requires p.ref > 0
    ensures r.Ok? <==> s.magic == SLICE_MAGIC
    ensures r.Ok? ==> r.value == p.(ref := p.ref - 1)
  {
    if s.magic != SLICE_MAGIC then Fatal(BadSliceMagic) else Ok(p.(ref := p.ref - 1))
  }

  /** How many free slices __mempool_recycle gives back: it stops when the list
      is empty or when `ref` has come down to `reserve`. */
  function Cut(p: Pool, reserve: nat): nat {
    if p.ref <= reserve then 0
    else if |p.free| <= p.ref - reserve then |p.free|
    else p.ref - reserve
  }

  /** __mempool_recycle: release free slices from the head down to `reserve`. */
  function RecycleDown(p: Pool, reserve: nat): (r: Outcome<Pool>)
    ensures r.Fatal? ==> r.bug == BadSliceMagic
    ensures r.Ok? ==> r.value.(free := p.free, ref := p.ref) == p
    ensures AllTagged(p.free) ==>
      r == Ok(p.(free := p.free[Cut(p, reserve)..], ref := p.ref - Cut(p, reserve)))
    decreases |p.free|
  {
    if |p.free| == 0 || p.ref <= reserve then Ok(p)
    else
      match FreeSlice(p.(free := p.free[1..]), p.free[0])
      case Fatal(b) => Fatal(b)
      case Ok(q) => RecycleDown(q, reserve)
  }

  /** mempool_recycle. Its `reserve` argument is ignored: it always recycles down to 0. */
  function Recycle(p: Pool, reserve: nat): (r: Outcome<Pool>)
    requires reserve < UINT_MOD
    ensures Valid(p) ==> r == Ok(p.(free := [], ref := |p.out|))
    ensures Valid(p) ==> Valid(r.value)
  {
    RecycleDown(p, 0)
  }

  /** mempool_exit: recycle everything free, then report a leak when slices are
      still outstanding. The result is whether the leak message is printed. */
  function Exit(p: Pool): (r: Outcome<bool>)
    ensures Valid(p) ==> r == Ok(|p.out| > 0)
    ensures AllTagged(p.free) ==> r.Ok?
  {
    match RecycleDown(p, 0)
    case Fatal(b) => Fatal(b)
    case Ok(q) => Ok(q.ref != 0)
  }
}

=== FILE: pool_trace.dfy ===
/**
 Sequences of pool operations: the pool invariant holds across any run of
 alloc, free and recycle calls started from mempool_init, and the magic checks
 of the pool never fire along such a run.
 */
module PoolTrace {
  import opened CWidth
  import opened SliceSize
  import opened MemPool

  /** One call a user of the pool can make, with the foreign outcomes it sees. */
  datatype Op =
    | AllocOp(m: Malloc, veto: bool)
    | FreeOp(addr: nat)
    | RecycleOp(reserve: nat)

  /** Where a run ends: every call made, a `BUG_ON` abort, or a call the caller
      was not allowed to make (a free of a slice it does not own). */
  datatype Trace = Reached(pool: Pool) | Crashed(bug: Bug) | Misused(pool: Pool)

  /** What the pool's user (and its malloc) must guarantee for a call. */
  predicate Permitted(p: Pool, op: Op) {
    match op
    case AllocOp(m, _) => Fresh(p, m)
    case FreeOp(a) => a in p.out
    case RecycleOp(reserve) => reserve < UINT_MOD
  }

  function Step(p: Pool, op: Op): (r: Outcome<Pool>)
    requires Permitted(p, op)
    ensures r.Ok? ==> r.value.max == p.max && r.value.sz == p.sz && r.value.hasCtor == p.hasCtor
  {
    match op
    case AllocOp(m, veto) =>
      (match Alloc(p, m, veto)
       case Fatal(b) => Fatal(b)
       case Ok(reply) => Ok(reply.pool))
    case FreeOp(a) => Ok(Free(p, a))
    case RecycleOp(reserve) => Recycle(p, reserve)
  }

  function Run(p: Pool, ops: seq<Op>): Trace
    decreases |ops|
  {
    if |ops| == 0 then Reached(p)
    else if !Permitted(p, ops[0]) then Misused(p)
    else match Step(p, ops[0])
      case Fatal(b) => Crashed(b)
      case Ok(q) => Run(q, ops[1..])
  }

  /** One permitted call from a valid pool keeps it valid. */
  lemma StepKeepsValid(p: Pool, op: Op)
    requires Valid(p) && Permitted(p, op)
    ensures Step(p, op).Ok? ==> Valid(Step(p, op).value)
    ensures Step(p, op).Fatal? ==>
      (Step(p, op).bug == NullSlice && p.hasCtor) || (Step(p, op).bug == SliceTooSmall && p.sz < HEADER_SIZE)
  {
    match op
    case AllocOp(m, veto) =>
      AllocKeepsValid(p, m, veto);
    case FreeOp(a) =>
    case RecycleOp(reserve) =>
  }

  /** Across any run from a valid pool: `ref` stays the number of free plus
      outstanding slices, the cap is respected, every free slice carries the
      magic, and no magic check fires. Only a constructor rejecting a NULL
      slice or a wrapped slice size can abort the run. */
  lemma {:induction false} RunKeepsValid(p: Pool, ops: seq<Op>)
    requires Valid(p)
    ensures Run(p, ops).Reached? || Run(p, ops).Misused? ==> Valid(Run(p, ops).pool)
    ensures Run(p, ops).Crashed? ==>
      (Run(p, ops).bug == NullSlice && p.hasCtor) || (Run(p, ops).bug == SliceTooSmall && p.sz < HEADER_SIZE)
    decreases |ops|
  {
    if |ops| > 0 && Permitted(p, ops[0]) {
      StepKeepsValid(p, ops[0]);
      match Step(p, ops[0])
      case Fatal(b) =>
      case Ok(q) =>
        assert q.sz == p.sz && q.hasCtor == p.hasCtor;
        RunKeepsValid(q, ops[1..]);
    }
  }

  /** From mempool_init with a representable slice size, no run of permitted
      calls breaks the invariant or trips a magic check; without a constructor
      hook no run aborts at all. */
  lemma InitThenRun(name: string, size: nat, max: nat, hasCtor: bool, hasDtor: bool, ops: seq<Op>)
    requires |name| > 0 && size <= MAX_ROUNDABLE && max < ULONG_MOD
    ensures Init(name, size, max, hasCtor, hasDtor).Ok?
    ensures var t := Run(Init(name, size, max, hasCtor, hasDtor).value, ops);
      && (t.Reached? ==> t.pool.ref == |t.pool.free| + |t.pool.out| && (max > 0 ==> t.pool.ref <= max))
      && (t.Reached? ==> AllTagged(t.pool.free))
      && (t.Crashed? ==> hasCtor && t.bug == NullSlice)
  {
    var p := Init(name, size, max, hasCtor, hasDtor).value;
    RunKeepsValid(p, ops);
    RunPreservesConfig(p, ops);
  }

  /** The size, cap and hooks fixed by mempool_init never change. */
  lemma {:induction false} RunPreservesConfig(p: Pool, ops: seq<Op>)
    ensures Run(p, ops).Reached? ==>
      Run(p, ops).pool.max == p.max && Run(p, ops).pool.sz == p.sz && Run(p, ops).pool.hasCtor == p.hasCtor
    decreases |ops|
  {
    if |ops| > 0 && Permitted(p, ops[0]) {
      match Step(p, ops[0])
      case Fatal(b) =>
      case Ok(q) => RunPreservesConfig(q, ops[1..]);
    }
  }

  /** A pool of capacity 2: two allocations succeed, the third is refused as
      exhausted, and after one free the third succeeds by reusing that slice. */
  lemma ScenarioCapacityTwo()
    ensures
      var p0 := Init("scenario", 64, 2, false, false).value;
      var r1 := Alloc(p0, MallocOk(1), false);
      var r2 := Alloc(r1.value.pool, MallocOk(2), false);
      var r3 := Alloc(r2.value.pool, MallocOk(3), false);
      var r4 := Alloc(Free(r3.value.pool, 1), MallocOk(3), false);
      && r1 == Ok(Granted(r1.value.pool, 1))
      && r2 == Ok(Granted(r2.value.pool, 2))
      && r3 == Ok(Refused(r3.value.pool, Exhausted))
      && r4 == Ok(Granted(r3.value.pool, 1))
      && r4.value.pool.ref == 2 && r4.value.pool.fail == 1
  {
    var p0 := Init("scenario", 64, 2, false, false).value;
    assert p0.sz == 64;
    var r1 := Alloc(p0, MallocOk(1), false);
    assert r1.value.pool.out == {1};
    var r2 := Alloc(r1.value.pool, MallocOk(2), false);
    assert r2.value.pool.out == {1, 2};
    var r3 := Alloc(r2.value.pool, MallocOk(3), false);
    FreeThenAlloc(r3.value.pool, 1, MallocOk(3), false);
  }
}

=== FILE: roundrobin.dfy ===
/**
 The round-robin dispatch policy (threadwq_man_rr.c).

 The policy state is the single counter `twq_idx`; each submission reads it,
 picks a queue and then either resets it or increments it. The read, the test
 and the update are separate atomic operations in the C code; here they form
 one sequential step. The queues are modelled as sequences of jobs and
 "forward to queue i" appends the job to the i-th sequence.

 The reset branch stores 0 although queue 0 is the one being used, so from 0
 the visiting order is 0, 1, ..., N-1, 0 and then again 0, 1, ...: queue 0
 receives two of every N+1 jobs. `Pick` is that behaviour; `PickRotating` is
 the exact rotation that the comment at threadwq_man_rr.c:17 ("add job into
 twq one by one") describes, kept beside it.
 */
module RoundRobin {
  // `twq_idx` and the queue count are `unsigned int`, bounded by UINT_MOD.
  import opened CWidth

  /** The round-robin part of the manager's private state. */
  datatype Rr = Rr(idx: nat)

  /** A job pointer; `NullJob` is the NULL pointer. */
  datatype Job<J> = NullJob | Job(payload: J)

  /** The queue chosen for one submission and the index stored afterwards. */
  datatype Choice = Choice(queue: nat, next: nat)

  /** The result of rr_add_job: the new state, the queues after forwarding, the
      queue used and the return code; or the abort of its `BUG_ON`. */
  datatype Submitted<J> =
    | Forwarded(state: Rr, queues: seq<seq<J>>, chosen: nat, status: int)
    | Aborted

  /** rr_init: whatever the number of queues, the first submission after it
      goes to queue 0 and leaves the index at 1. */
  function RrInit(): (r: Rr)
    ensures r.idx < UINT_MOD
    ensures forall n :: 0 < n ==> Pick(r.idx, n) == Choice(0, 1)
  {
    Rr(0)
  }

  /** rr_exit does nothing. */
  function RrExit(s: Rr): Rr {
    s
  }

  /** Index selection and update of rr_add_job over `n` queues. */
  function Pick(idx: nat, n: nat): (c: Choice)
    requires 0 < n
    ensures c.queue < n && c.next <= n
    ensures idx < n ==> c.queue == idx && c.next == idx + 1
    ensures idx >= n ==> c.queue == 0 && c.next == 0
  {
    if idx >= n then Choice(0, 0) else Choice(idx, idx + 1)
  }

  /** rr_add_job: forward exactly one job to exactly one queue and return 0.
      A NULL job trips the `BUG_ON`; the manager itself is never NULL here. */
  function AddJob<J>(s: Rr, queues: seq<seq<J>>, job: Job<J>): (r: Submitted<J>)
    requires 0 < |queues| < UINT_MOD && s.idx < UINT_MOD
    ensures r.Aborted? <==> job.NullJob?
    ensures r.Forwarded? ==> r.status == 0 && |r.queues| == |queues|
    ensures r.Forwarded? ==> r.chosen < |queues| && r.state.idx <= |queues|
    ensures r.Forwarded? ==> r.queues[r.chosen] == queues[r.chosen] + [job.payload]
    ensures r.Forwarded? ==> forall q :: 0 <= q < |queues| && q != r.chosen ==> r.queues[q] == queues[q]
    ensures r.Forwarded? && s.idx < |queues| ==> r.chosen == s.idx && r.state.idx == s.idx + 1
    ensures r.Forwarded? && s.idx >= |queues| ==> r.chosen == 0 && r.state.idx == 0
  {
    match job
    case NullJob => Aborted
    case Job(payload) =>
      var c := Pick(s.idx, |queues|);
      Forwarded(Rr(c.next), queues[c.queue := queues[c.queue] + [payload]], c.queue, 0)
  }

  /** The queues chosen by `k` consecutive submissions from index `idx`. */
  function Visits(idx: nat, n: nat, k: nat): (v: seq<nat>)
    requires 0 < n
    ensures |v| == k
    decreases k
  {
    if k == 0 then [] else [Pick(idx, n).queue] + Visits(Pick(idx, n).next, n, k - 1)
  }

  /** The stored index after `k` consecutive submissions from index `idx`. */
  function After(idx: nat, n: nat, k: nat): nat
    requires 0 < n
    decreases k
  {
    if k == 0 then idx else After(Pick(idx, n).next, n, k - 1)
  }

  /** The half-open range lo, lo+1, ..., hi-1. */
  function Range(lo: nat, hi: nat): (r: seq<nat>)
    requires lo <= hi
    ensures |r| == hi - lo
    decreases hi - lo
  {
    if lo == hi then [] else [lo] + Range(lo + 1, hi)
  }

  /** Splitting a run of submissions in two. */
  lemma {:induction false} VisitsSplit(i: nat, n: nat, a: nat, b: nat)
    requires 0 < n
    ensures Visits(i, n, a + b) == Visits(i, n, a) + Visits(After(i, n, a), n, b)
    ensures After(i, n, a + b) == After(After(i, n, a), n, b)
    decreases a
  {
    if a > 0 {
      var c := Pick(i, n);
      VisitsSplit(c.next, n, a - 1, b);
      assert a + b - 1 == (a - 1) + b;
      assert Visits(i, n, a + b) == [c.queue] + Visits(c.next, n, (a - 1) + b);
    }
  }

  /** From a stored index i < n the submissions climb to n in order. */
  lemma {:induction false} ClimbToEnd(i: nat, n: nat)
    requires i <= n && 0 < n
    ensures Visits(i, n, n - i) == Range(i, n)
    ensures After(i, n, n - i) == n
    decreases n - i
  {
    if i < n {
      ClimbToEnd(i + 1, n);
      assert n - i - 1 == n - (i + 1);
    }
  }

  /** Starting from rr_init, n+1 submissions visit 0, 1, ..., n-1 and then 0
      again, and leave the stored index back at 0. */
  lemma FirstRound(n: nat)
    requires 0 < n
    ensures Visits(RrInit().idx, n, n + 1) == Range(0, n) + [0]
    ensures After(RrInit().idx, n, n + 1) == 0
  {
    ClimbToEnd(0, n);
    VisitsSplit(0, n, n, 1);
  }

  /** How many times `q` occurs in `s`: the number of jobs a queue receives. */
  function Count(s: seq<nat>, q: nat): nat
    decreases |s|
  {
    if |s| == 0 then 0 else (if s[0] == q then 1 else 0) + Count(s[1..], q)
  }

  lemma {:induction false} CountAppend(a: seq<nat>, b: seq<nat>, q: nat)
    ensures Count(a + b, q) == Count(a, q) + Count(b, q)
    decreases |a|
  {
    if |a| > 0 {
      assert (a + b)[1..] == a[1..] + b;
      CountAppend(a[1..], b, q);
    } else {
      assert a + b == b;
    }
  }

  lemma {:induction false} RangeCount(lo: nat, hi: nat, q: nat)
    requires lo <= hi
    ensures Count(Range(lo, hi), q) == if lo <= q < hi then 1 else 0
    decreases hi - lo
  {
    if lo < hi {
      RangeCount(lo + 1, hi, q);
      assert Range(lo, hi)[1..] == Range(lo + 1, hi);
    }
  }

  /** k laps of m submissions, counted without multiplication. */
  function Laps(k: nat, m: nat): (t: nat)
    ensures t == k * m
  {
    if k == 0 then 0 else m + Laps(k - 1, m)
  }

  /** One lap of n+1 submissions from rr_init: queue 0 twice, the others once. */
  lemma LapCount(n: nat, q: nat)
    requires 0 < n && q < n
    ensures Count(Visits(0, n, n + 1), q) == if q == 0 then 2 else 1
  {
    FirstRound(n);
    RangeCount(0, n, q);
    CountAppend(Range(0, n), [0], q);
  }

  lemma {:induction false} SkewedLaps(n: nat, k: nat, q: nat)
    requires 0 < n && q < n
    ensures Count(Visits(0, n, Laps(k, n + 1)), q) == if q == 0 then 2 * k else k
    ensures After(0, n, Laps(k, n + 1)) == 0
    decreases k
  {
    if k > 0 {
      var rest := Laps(k - 1, n + 1);
      VisitsSplit(0, n, n + 1, rest);
      FirstRound(n);
      LapCount(n, q);
      SkewedLaps(n, k - 1, q);
      CountAppend(Visits(0, n, n + 1), Visits(0, n, rest), q);
    }
  }

  /** As written: k*(n+1) submissions from rr_init give queue 0 twice as many
      jobs as any other queue, and bring the stored index back to 0. */
  lemma SkewedShare(n: nat, k: nat, q: nat)
    requires 0 < n && q < n
    ensures Count(Visits(RrInit().idx, n, k * (n + 1)), q) == if q == 0 then 2 * k else k
    ensures After(RrInit().idx, n, k * (n + 1)) == 0
  {
    SkewedLaps(n, k, q);
  }

  /** rr_add_job applied to each job in turn. */
  function SubmitAll<J>(s: Rr, queues: seq<seq<J>>, jobs: seq<J>): (r: (Rr, seq<seq<J>>))
    requires 0 < |queues| < UINT_MOD && s.idx <= |queues|
    ensures |r.1| == |queues| && r.0.idx <= |queues|
    decreases |jobs|
  {
    if |jobs| == 0 then (s, queues)
    else
      var r := AddJob(s, queues, Job(jobs[0]));
      SubmitAll(r.state, r.queues, jobs[1..])
  }

  /** Every job lands in the queue the visiting order names: each queue grows
      by the number of times it is visited. */
  lemma {:induction false} SubmitAllFollowsVisits<J>(s: Rr, queues: seq<seq<J>>, jobs: seq<J>, q: nat)
    requires 0 < |queues| < UINT_MOD && s.idx <= |queues| && q < |queues|
    ensures |SubmitAll(s, queues, jobs).1[q]| == |queues[q]| + Count(Visits(s.idx, |queues|, |jobs|), q)
    ensures SubmitAll(s, queues, jobs).0.idx == After(s.idx, |queues|, |jobs|)
    decreases |jobs|
  {
    if |jobs| > 0 {
      var r := AddJob(s, queues, Job(jobs[0]));
      SubmitAllFollowsVisits(r.state, r.queues, jobs[1..], q);
    }
  }

  /** Three queues, nine jobs from rr_init: the queues receive 5, 2 and 2 jobs,
      not 3 each. */
  lemma NineJobsOverThreeQueues<J>(jobs: seq<J>)
    requires |jobs| == 9
    ensures var qs := SubmitAll(RrInit(), [[], [], []], jobs).1;
      |qs[0]| == 5 && |qs[1]| == 2 && |qs[2]| == 2
  {
    NineVisits(0);
    NineVisits(1);
    NineVisits(2);
    SubmitAllFollowsVisits(RrInit(), [[], [], []], jobs, 0);
    SubmitAllFollowsVisits(RrInit(), [[], [], []], jobs, 1);
    SubmitAllFollowsVisits(RrInit(), [[], [], []], jobs, 2);
  }

  lemma NineVisits(q: nat)
    requires q < 3
    ensures Count(Visits(0, 3, 9), q) == if q == 0 then 5 else 2
  {
    assert Laps(2, 4) == 8;
    VisitsSplit(0, 3, 8, 1);
    SkewedLaps(3, 2, q);
    assert Visits(0, 3, 1) == [0];
    CountAppend(Visits(0, 3, 8), [0], q);
  }

  /** The one-by-one rotation described by the comment at
      threadwq_man_rr.c:17: after using queue 0 on a reset, the stored index
      becomes 1. */
  function PickRotating(idx: nat, n: nat): (c: Choice)
    requires 0 < n
    ensures c.queue < n && c.next <= n
    ensures idx < n ==> c.queue == idx && c.next == idx + 1
    ensures idx >= n ==> c.queue == 0 && c.next == 1
  {
    if idx >= n then Choice(0, 1) else Choice(idx, idx + 1)
  }

  function VisitsRotating(idx: nat, n: nat, k: nat): (v: seq<nat>)
    requires 0 < n
    ensures |v| == k
    decreases k
  {
    if k == 0 then [] else [PickRotating(idx, n).queue] + VisitsRotating(PickRotating(idx, n).next, n, k - 1)
  }

  function AfterRotating(idx: nat, n: nat, k: nat): nat
    requires 0 < n
    decreases k
  {
    if k == 0 then idx else AfterRotating(PickRotating(idx, n).next, n, k - 1)
  }

  lemma {:induction false} RotatingSplit(i: nat, n: nat, a: nat, b: nat)
    requires 0 < n
    ensures VisitsRotating(i, n, a + b) == VisitsRotating(i, n, a) + VisitsRotating(AfterRotating(i, n, a), n, b)
    ensures AfterRotating(i, n, a + b) == AfterRotating(AfterRotating(i, n, a), n, b)
    decreases a
  {
    if a > 0 {
      var c := PickRotating(i, n);
      RotatingSplit(c.next, n, a - 1, b);
      assert a + b - 1 == (a - 1) + b;
      assert VisitsRotating(i, n, a + b) == [c.queue] + VisitsRotating(c.next, n, (a - 1) + b);
    }
  }

  lemma {:induction false} RotatingClimb(i: nat, n: nat)
    requires i <= n && 0 < n
    ensures VisitsRotating(i, n, n - i) == Range(i, n)
    ensures AfterRotating(i, n, n - i) == n
    decreases n - i
  {
    if i < n {
      RotatingClimb(i + 1, n);
      assert n - i - 1 == n - (i + 1);
    }
  }

  /** With the corrected update, n submissions from index 0 or from index n
      visit every queue once in order and leave the index at n. */
  lemma RotatingLap(i: nat, n: nat)
    requires 0 < n && (i == 0 || i == n)
    ensures VisitsRotating(i, n, n) == Range(0, n)
    ensures AfterRotating(i, n, n) == n
  {
    if i == 0 {
      RotatingClimb(0, n);
    } else {
      RotatingClimb(1, n);
      RotatingSplit(n, n, 1, n - 1);
      assert 1 + (n - 1) == n;
      assert Range(0, n) == [0] + Range(1, n);
    }
  }

  lemma {:induction false} RotatingLaps(i: nat, n: nat, k: nat, q: nat)
    requires 0 < n && q < n && (i == 0 || i == n)
    ensures Count(VisitsRotating(i, n, Laps(k, n)), q) == k
    decreases k
  {
    if k > 0 {
      var rest := Laps(k - 1, n);
      RotatingSplit(i, n, n, rest);
      RotatingLap(i, n);
      RangeCount(0, n, q);
      RotatingLaps(n, n, k - 1, q);
      CountAppend(VisitsRotating(i, n, n), VisitsRotating(n, n, rest), q);
    }
  }

  /** Corrected: k*n submissions from rr_init give every queue exactly k jobs. */
  lemma FairShare(n: nat, k: nat, q: nat)
    requires 0 < n && q < n
    ensures Count(VisitsRotating(RrInit().idx, n, k * n), q) == k
  {
    RotatingLaps(0, n, k, q);
  }
}

=== FILE: slice_size.dfy ===
/**
 Slice-size arithmetic of the memory pool (mempool_calc_slice_size).

 The computation is done in C `unsigned int` arithmetic on an LP64 Linux
 target: the control header `struct mempool_slice` occupies 24 bytes and
 `sizeof(unsigned long)` is 8. The final addition wraps modulo 2^32, so the
 few largest inputs round up to 0; that wrap is modelled, not hidden.
 */
module SliceSize {
  import opened CWidth

  /** sizeof(struct mempool_slice): 4-byte magic, 4 bytes padding, a two-pointer list node. */
  const HEADER_SIZE: nat := 24

  /** ALIGN_TO_N, i.e. sizeof(unsigned long). */
  const WORD: nat := 8

  /** The largest input whose rounded size still fits in an `unsigned int`. */
  const MAX_ROUNDABLE: nat := UINT_MOD - WORD

  predicate Aligned(m: int) {
    m % WORD == 0
  }

  function Max(a: nat, b: nat): nat {
    if a < b then b else a
  }

  /** What a slice size for a request of `x` bytes has to be: room for the
      request and for the header, word aligned, and less than one word of slack. */
  predicate FitsRequest(x: nat, r: nat) {
    && r >= x
    && r >= HEADER_SIZE
    && Aligned(r)
    && r < Max(x, HEADER_SIZE) + WORD
  }

  /** mempool_calc_slice_size: raise to the header size, then pad up to a word. */
  function CalcSliceSize(input: nat): (r: nat)
    requires input < UINT_MOD
    ensures r < UINT_MOD
    ensures input <= MAX_ROUNDABLE ==> FitsRequest(input, r)
    ensures input > MAX_ROUNDABLE ==> r == 0
  {
    var realSize := if input < HEADER_SIZE then HEADER_SIZE else input;
    var padding := if realSize % WORD != 0 then WORD - realSize % WORD else 0;
    (realSize + padding) % UINT_MOD
  }

  /** The computed size is the smallest aligned size that holds both the
      request and the header. */
  lemma CalcSliceSizeIsLeast(x: nat, m: nat)
    requires x <= MAX_ROUNDABLE
    requires Aligned(m) && m >= x && m >= HEADER_SIZE
    ensures CalcSliceSize(x) <= m
  {
  }

  /** Rounding an already rounded size changes nothing. */
  lemma CalcSliceSizeIdempotent(x: nat)
    requires x <= MAX_ROUNDABLE
    ensures CalcSliceSize(x) <= MAX_ROUNDABLE
    ensures CalcSliceSize(CalcSliceSize(x)) == CalcSliceSize(x)
  {
  }

  /** Every `unsigned int` request above 2^32-8 wraps round to a slice size
      of 0, while 2^32-8 itself is already rounded and kept. */
  lemma CalcSliceSizeWraps()
    ensures forall x :: MAX_ROUNDABLE < x < UINT_MOD ==> CalcSliceSize(x) == 0
    ensures CalcSliceSize(MAX_ROUNDABLE) == MAX_ROUNDABLE
  {
  }
}
